=== FILE: README.md ===
# oh-my-live2d: model selection and switch pipeline

This project models the controller class `OhMyLive2D` of the oh-my-live2d widget.
The widget shows an animated Live2D character on a web page. The modelled part
is how the controller chooses which character ("model") and which variant
("clothes") is shown, and the fixed sequence of steps it runs to load that
choice.

The model is functional:

- A `Widget` record holds the options and the controller's two indices,
  `currentModelIndex` and `currentModelClothesIndex`. It also holds the copies
  of those indices kept by the stage, the renderable manager (`Models`) and the
  persistent store.
- Each public operation is a pure function. It returns the new widget, a trace
  of abstract effects, and whether the returned promise resolves or rejects.
- Every call into an opaque collaborator is one effect token: the status bar,
  tooltip, menus, stage, rendering application, renderable manager and store.
  Store writes made by the two setters are tokens too, so intermediate setter
  values show up in the trace.
- What the controller learns from outside is an `Env` parameter. It holds the
  window size class, whether building a given (model, clothes) selection
  succeeds, the random-index helper, and whether an idle tooltip player exists.

Modules:

- `Effects` (effects.dfy): the effect tokens and predicates over traces.
- `Selection` (selection.dfy): the options, the widget, the two index setters
  and construction.
- `Pipeline` (pipeline.dfy): the shared `loadModel` pipeline, its
  continuations, and its ordering and failure lemmas.
- `Switching` (switching.dfy): the public operations `reloadModel`,
  `loadRandomModel`, `loadNextModel`, `loadSpecificModel` and
  `loadNextModelClothes`, plus the first load that `initialize` starts.
- `SwitchProperties` (properties.dfy): properties that span several calls.
  These are circularity, invariants that hold over any sequence of calls, and
  the retry behaviour.

Behaviour of the code worth noting, which the model keeps:

- A failed build does not end the pipeline. The rejection is caught and the
  error status is shown with a retry. After that, mounting, decoration reload,
  layout, hiding the loading visual and the continuation all still run.
- `loadRandomModel` stores whatever the random-index helper returns. The
  controller itself does not avoid the current index.
- `loadSpecificModel` range-checks only the model index. The clothes index is
  stored unchecked.
- Overlapping switches are neither serialised nor cancelled.
- `loadNextModelClothes` reads `models[modelIndex].path` before its emptiness
  test. An index outside the list therefore throws, and the returned promise
  rejects with no effects. The emptiness test that follows can never fail.
- `loadNextModelClothes` tests whether the path is an array, not how many
  paths it holds. A model whose path is an array with one path therefore
  reloads the same clothes through the full pipeline, and an empty array does
  the same; neither shows the "no other clothes" notice.

## Model

| member | source | states |
|---|---|---|
| Selection.SetModelIndex | packages/oh-my-live2d/src/modules/oml2d.ts:56-61 | After the setter, the controller, stage, renderable-manager and store copies of the model index all equal the written value. The clothes copies and the options are unchanged. Exactly one store write is issued. |
| Selection.SetModelClothesIndex | packages/oh-my-live2d/src/modules/oml2d.ts:67-71 | After the setter, the controller, renderable-manager and store copies of the clothes index equal the written value. The stage, every model-index copy and the options are unchanged. |
| Selection.Construct | packages/oh-my-live2d/src/modules/oml2d.ts:44-46 | Construction reads the stored indices back through both setters. Whatever the collaborators held before, all copies then agree and equal the stored values. |
| Pipeline.CallbackEffects | packages/oh-my-live2d/src/modules/oml2d.ts:236-249 | The first-load continuation of a widget that starts asleep clears the tooltip, opens the rest message and installs the rest click handler, and does not slide in. Every other continuation slides the stage in and does none of those three. |
| Pipeline.SleepingContinuationOrder | packages/oh-my-live2d/src/modules/oml2d.ts:237-240 | When asleep, the tooltip is cleared before the rest message opens, and the message opens before the click handler is installed. |
| Pipeline.RestClickEffects | packages/oh-my-live2d/src/modules/oml2d.ts:240-245 | The installed rest click handler slides the stage in first, closes the status bar, clears its hover handler, and removes its own click handler last. |
| Pipeline.LoadModel | packages/oh-my-live2d/src/modules/oml2d.ts:103-136 | The trace always starts with TipsClear, SlideOut. With no models it is exactly that. When the widget is hidden on mobile it is exactly TipsClear, SlideOut, StatusRest. A build is attempted iff neither early exit applies, and only for the selection held by the renderable manager. |
| Pipeline.LoadModelContainsFailure | packages/oh-my-live2d/src/modules/oml2d.ts:119-135 | The error status with its reload retry appears iff the build path is taken and the build fails. On the build path, the settled steps and the continuation run even after a failure. An early exit never slides the stage in. |
| Pipeline.LoadModelStartOrder | packages/oh-my-live2d/src/modules/oml2d.ts:104-120 | On the build path, TipsClear comes before SlideOut, which comes before ShowLoading, which comes before the build. |
| Pipeline.LoadModelSettlesAfterBuild | packages/oh-my-live2d/src/modules/oml2d.ts:119-132 | Mount, menus and tips reload, model setup, restyle, resize and HideLoading all come after the build, whatever its outcome. |
| Pipeline.LoadModelErrorBeforeMount | packages/oh-my-live2d/src/modules/oml2d.ts:121-125 | After a failed build, the error status comes after the build and before the mount. |
| Pipeline.LoadModelCallbackLast | packages/oh-my-live2d/src/modules/oml2d.ts:134 | On the build path, the continuation's effects are the last effects of the trace. |
| Pipeline.InitialSlideIn | packages/oh-my-live2d/src/modules/oml2d.ts:236-249 | The first load slides the stage in iff it reaches the build path and the initial status is active. |
| Pipeline.InitialRestMessage | packages/oh-my-live2d/src/modules/oml2d.ts:236-249 | The first load opens the rest message iff it reaches the build path and the initial status is sleep. |
| Pipeline.InitialRestClick | packages/oh-my-live2d/src/modules/oml2d.ts:236-249 | The first load installs the rest click handler, carrying the handler's effects, iff it reaches the build path and the initial status is sleep. |
| Pipeline.LoadModelLeavesOutSwitchSteps | packages/oh-my-live2d/src/modules/oml2d.ts:103-136 | The pipeline itself never opens the switching message and never starts the idle player. |
| Switching.InitialLoad | packages/oh-my-live2d/src/modules/oml2d.ts:236-249 | The first load runs exactly the pipeline with the first-load continuation, keeps the selection and resolves. It builds iff the build path is reached. The error with its retry appears iff that build fails. When active it slides in. When asleep it opens the rest message and installs the rest handler. All of these happen only on the build path. |
| Switching.NextIndex | packages/oh-my-live2d/src/modules/oml2d.ts:166-168 | The next index is old+1 while that is below the count, and 0 otherwise. For an in-range index this is (old + 1) modulo the count. The result lies in [0, count) iff count > 0 and the old index is at least -1. |
| Switching.SwitchEffects | packages/oh-my-live2d/src/modules/oml2d.ts:171-176 | A model switch opens the switching message and then does exactly what a reload does. The error with its retry appears iff the build path is reached and the build fails. It slides in iff the build path is reached. It starts the idle player, as its last step, iff there is one. It builds only the renderable manager's selection. |
| Switching.ReloadModel | packages/oh-my-live2d/src/modules/oml2d.ts:141-146 | Reload keeps the selection and resolves. Its trace is the slide-in pipeline run followed by the idle start. The error with its retry appears iff the build path is reached and the build fails. It slides in iff the build path is reached. It starts the idle player, as its last step, iff there is one. It never opens the switching message, and builds only the current selection. |
| Switching.RandomSetters | packages/oh-my-live2d/src/modules/oml2d.ts:151-153 | The model index becomes the random helper's result and the clothes index becomes 0. All copies agree, the options are unchanged, and no build happens before the pipeline. |
| Switching.LoadRandomModel | packages/oh-my-live2d/src/modules/oml2d.ts:151-160 | The random switch leaves the widget its setters produce and resolves. It builds only (new index, 0), and does so iff the build path is reached. |
| Switching.NextModelSetters | packages/oh-my-live2d/src/modules/oml2d.ts:165-169 | The new model index is old+1 when below the model count, else 0, and the clothes index is reset to 0. The first store write is old+1, and when that reaches the count the next write is 0. All copies agree afterwards. |
| Switching.LoadNextModel | packages/oh-my-live2d/src/modules/oml2d.ts:165-177 | The next-model switch leaves the widget its setters produce, and its trace starts with their store writes. It resolves, and builds only (new index, 0). |
| Switching.SpecificSetters | packages/oh-my-live2d/src/modules/oml2d.ts:183-185 | The model index becomes the argument. The clothes index becomes the given value, or 0 when it is absent. All copies agree afterwards. |
| Switching.LoadSpecificModel | packages/oh-my-live2d/src/modules/oml2d.ts:182-194 | An out-of-range model index changes nothing and issues no effect. An in-range index sets both indices and keeps the copies equal. The switch builds exactly that selection unless the widget is hidden on mobile. |
| Switching.NextClothesSetters | packages/oh-my-live2d/src/modules/oml2d.ts:203-205 | The clothes index becomes old+1 when below the clothes count, else 0, with old+1 written to the store first. The controller, stage, renderable-manager and store copies of the model index are all untouched, and the clothes copies end up equal. |
| Switching.LoadNextModelClothes | packages/oh-my-live2d/src/modules/oml2d.ts:199-213 | An out-of-range model index rejects with no effect. A model whose path is a string gives exactly one notice (5000 ms, priority 3) and no index change. A model whose path is an array, of any length including one or none, advances the clothes. The rest of its trace is then exactly the slide-in pipeline run on the new selection. No case opens the switching message or starts the idle player. The model index never changes. |
| SwitchProperties.NextModelAdvances | packages/oh-my-live2d/src/modules/oml2d.ts:165-169 | From an in-range index, k next-model calls give the index (old + k) modulo the model count. |
| SwitchProperties.NextModelCircular | packages/oh-my-live2d/src/modules/oml2d.ts:165-169 | Calling the next-model operation once per model returns to the starting index. |
| SwitchProperties.NextClothesAdvances | packages/oh-my-live2d/src/modules/oml2d.ts:203-205 | From an in-range clothes index, k next-clothes calls give (old + k) modulo the clothes count and keep the model index. |
| SwitchProperties.NextClothesCircular | packages/oh-my-live2d/src/modules/oml2d.ts:199-212 | Calling the next-clothes operation once per clothes returns to the starting clothes index without changing the model. |
| SwitchProperties.CallRunsPipeline | packages/oh-my-live2d/src/modules/oml2d.ts:141-213 | For every public call: the error with its retry appears iff the call runs the pipeline, reaches the build path, and the build of the selection it leaves fails. It slides in iff it runs the pipeline and reaches the build path. Only the three model switches open the switching message. Every pipeline-running call except next-clothes starts the idle player when there is one. Calls that do not run the pipeline issue none of these. |
| SwitchProperties.ApplyKeepsMirrors | packages/oh-my-live2d/src/modules/oml2d.ts:56-71 | Any single public call keeps all copies equal and the options fixed. It builds only the selection it leaves, and rejects only when the next-clothes read is out of range. |
| SwitchProperties.CallsKeepMirrors | packages/oh-my-live2d/src/modules/oml2d.ts:56-71 | Over any sequence of public calls, all copies stay equal and the options stay fixed. |
| SwitchProperties.ReachableIsMirrored | packages/oh-my-live2d/src/modules/oml2d.ts:44-46 | Every widget reachable from construction by public calls has all copies equal. |
| SwitchProperties.CallsKeepModelInRange | packages/oh-my-live2d/src/modules/oml2d.ts:151-194 | With a non-empty model list and a random helper that stays in range, an in-range model index stays in range through any sequence of calls. |
| SwitchProperties.RetryRebuildsSameSelection | packages/oh-my-live2d/src/modules/oml2d.ts:121-146 | The retry bound to a failed build reruns reload on the widget the failure left. It keeps the selection and attempts the same model and clothes again, provided the window class has not changed. |

## Left out

- Rendering, animation and DOM styling are not modelled. `PixiApp`, `Stage`, `GlobalStyle`, `StatusBar`, `Tips`, `Menus` and `Models` are opaque. Each call into them is one effect token.
- The rest of `initialize` is not modelled: `checkVersion` (a network call), `printProjectInfo` (console output), `registerGlobalEvent` (window resize and copy handlers), `globalStyle.initialize`, `create` and `mount`. Only the first load and its sleep/active continuation are modelled.
- The persistent store is two integer fields written by the setters. Its browser storage and `updateModelInfo` are not modelled. The values read at construction are inputs.
- `getRandomIndex` is not part of this model. It is the uninterpreted `Env.randomIndex`.
- Window size classification is not modelled. It is `Env.windowSize`, fixed for one call.
- Whether building a renderable succeeds is not modelled. It is `Env.build` applied to the renderable manager's selection.
- Interleavings of overlapping switches are not modelled: each operation runs to completion before the next starts. The code neither serialises nor cancels switches. So a second call made while the first awaits the stage's slide-out can change the renderable manager's indices before the first call builds, and the model does not cover that.
- Every collaborator call is assumed to return normally. The "resolves" outcome of each operation therefore holds by construction. A collaborator that throws would reject the promise instead; for example, mounting or setting up the renderable after a failed build. The one rejection modelled is the out-of-range read in `loadNextModelClothes`.
- Indices are mathematical integers. The model does not cover JavaScript's NaN, fractional indices such as `loadSpecificModel(1.5)`, or an undefined `options.models`.
- A call made before `initialize` is not modelled. There `pixiApp` is still undefined and `stage.element` may be null. The trace records mount and resize regardless.
- The load events (`loading`, `success`, `fail`) are emitted inside `Models`, which is not part of this model. The demo host page is not modelled either.
- Switching.LoadRandomModel: states only that the helper's result is stored and the clothes are reset. It does not claim the new index differs from the current one, because the helper's code is not part of this model.

=== FILE: effects.dfy ===
/** The observable effects of the widget controller, in the order it issues them.

    Every collaborator that the controller drives (stage, status bar, tooltip,
    menus, renderable manager, persistent store, rendering application) is opaque
    here: a call into it is recorded as one token of a trace, and the properties
    of the controller are statements about that trace.
 */
module Effects {

  /** Texts the status bar opens with; both come from the resolved options. */
  datatype StatusMessage = SwitchingMessage | RestMessage

  /** The one tooltip notice the controller itself raises ("no other clothes"). */
  datatype TipMessage = NoOtherClothes

  /** Display time, in milliseconds, of the "no other clothes" notice. */
  const NoOtherClothesDuration: int := 5000

  /** Priority of the "no other clothes" notice. */
  const NoOtherClothesPriority: int := 3

  datatype Effect =
    // persistent store writes made by the two index setters
    | StoreModelIndex(index: int)
    | StoreClothesIndex(index: int)
    // tooltip
    | TipsClear
    | TipsReload
    | Notification(tip: TipMessage, duration: int, priority: int)
    | IdleStart
    // stage and rendering application
    | SlideOut
    | SlideIn
    | Mount
    | ReloadStyle
    | Resize
    // menus
    | MenusReload
    // status bar
    | StatusOpen(message: StatusMessage)
    | StatusRest
    | ShowLoading
    | LoadingErrorRetryReload   // error visual whose retry action re-runs the reload operation
    | HideLoading
    | StatusClose
    | StatusClearHover
    | StatusClearClick
    | SetRestClickHandler(handler: seq<Effect>)  // installs the click handler of the resting status bar; `handler` is what a click runs
    // renderable manager
    | Build(modelIndex: int, clothesIndex: int)
    | SettingModel

  /** `a` is issued at some point of `t` and `b` is issued strictly later. */
  ghost predicate Before(t: seq<Effect>, a: Effect, b: Effect) {
    exists i, j :: 0 <= i < j < |t| && t[i] == a && t[j] == b
  }

  /** Some build of a renderable is attempted in `t`. */
  ghost predicate BuildAttempted(t: seq<Effect>) {
    exists i :: 0 <= i < |t| && t[i].Build?
  }

  /** Every build attempted in `t` is of the selection (`m`, `c`). */
  ghost predicate BuildsOnly(t: seq<Effect>, m: int, c: int) {
    forall i :: 0 <= i < |t| && t[i].Build? ==> t[i] == Build(m, c)
  }

  /** Builds of a concatenation are the builds of its parts. */
  lemma BuildsConcat(a: seq<Effect>, b: seq<Effect>, m: int, c: int)
    ensures BuildAttempted(a + b) <==> BuildAttempted(a) || BuildAttempted(b)
    ensures BuildsOnly(a + b, m, c) <==> BuildsOnly(a, m, c) && BuildsOnly(b, m, c)
  {
    var t := a + b;
    assert forall i :: 0 <= i < |a| ==> t[i] == a[i];
    assert forall i :: 0 <= i < |b| ==> t[|a| + i] == b[i];
    if BuildAttempted(t) {
      var i :| 0 <= i < |t| && t[i].Build?;
      if i >= |a| {
        assert b[i - |a|].Build?;
      }
    }
    if BuildAttempted(b) {
      var i :| 0 <= i < |b| && b[i].Build?;
      assert t[|a| + i].Build?;
    }
    if BuildsOnly(a, m, c) && BuildsOnly(b, m, c) {
      forall i | 0 <= i < |t| && t[i].Build?
        ensures t[i] == Build(m, c)
      {
        if i >= |a| {
          assert t[i] == b[i - |a|];
        }
      }
    }
  }

  /** `t` holds nothing but store writes, as the setters issue. */
  predicate StoreWritesOnly(t: seq<Effect>) {
    forall i :: 0 <= i < |t| ==> t[i].StoreModelIndex? || t[i].StoreClothesIndex?
  }

  /** Store writes concatenated are store writes, and they hold no other step. */
  lemma StoreWritesConcat(a: seq<Effect>, b: seq<Effect>)
    requires StoreWritesOnly(a) && StoreWritesOnly(b)
    ensures StoreWritesOnly(a + b)
    ensures !BuildAttempted(a + b)
  {
    var t := a + b;
    forall i | 0 <= i < |t|
      ensures t[i].StoreModelIndex? || t[i].StoreClothesIndex?
    {
      if i >= |a| {
        assert t[i] == b[i - |a|];
      }
    }
  }

  /** A step that is not a store write is missing from store writes followed
      by `rest` exactly when it is missing from `rest`. */
  lemma AfterStoreWrites(writes: seq<Effect>, rest: seq<Effect>, e: Effect)
    requires StoreWritesOnly(writes)
    requires !e.StoreModelIndex? && !e.StoreClothesIndex?
    ensures e in writes + rest <==> e in rest
    ensures (writes + rest)[|writes|..] == rest
  {
    assert e !in writes;
  }
}

=== FILE: pipeline.dfy ===
/** The shared load pipeline that every switch operation runs once its indices
    are set: clear the tooltip, slide the stage out, stop when there is nothing
    to show or the widget is hidden on a mobile-sized window, otherwise build
    the renderable, mount and lay it out, and run the caller's continuation.
 */
module Pipeline {
  import opened Effects
  import opened Selection

  datatype WindowSizeType = Pc | Mobile

  /** What the controller learns from outside: the window classification, the
      outcome of building the renderable for a (model, clothes) selection, the
      random-index helper applied to (model count, current index), and whether
      an idle tooltip player is configured. */
  datatype Env = Env(
    windowSize: WindowSizeType,
    build: (int, int) -> bool,
    randomIndex: (int, int) -> int,
    idlePlayer: bool)

  /** The continuation handed to the pipeline. */
  datatype Callback =
    | SlideInCallback   // every public switch operation: slide the stage in
    | InitialCallback   // first load: slide in, or rest when starting asleep

  predicate MobileHidden(o: Options, size: WindowSizeType) {
    !o.mobileDisplay && size == Mobile
  }

  /** The pipeline goes past both early exits and attempts a build. */
  predicate OnBuildPath(w: Widget, env: Env) {
    |w.options.models| > 0 && !MobileHidden(w.options, env.windowSize)
  }

  /** The continuation is the first load's and the widget starts asleep. */
  predicate StartsAsleep(k: Callback, o: Options) {
    k.InitialCallback? && o.initialStatus.Sleep?
  }

  /** The effects of running the continuation. A sleeping first load clears
      the tooltip, opens the rest message and then installs a click handler
      that slides the stage in later; every other continuation slides in now. */
  function CallbackEffects(k: Callback, o: Options): (t: seq<Effect>)
    ensures SlideIn in t <==> !StartsAsleep(k, o)
    ensures TipsClear in t <==> StartsAsleep(k, o)
    ensures StatusOpen(RestMessage) in t <==> StartsAsleep(k, o)
    ensures SetRestClickHandler(RestClickEffects()) in t <==> StartsAsleep(k, o)
  {
    if StartsAsleep(k, o) then [TipsClear, StatusOpen(RestMessage), SetRestClickHandler(RestClickEffects())]
    else [SlideIn]
  }

  /** A sleeping first load clears the tooltip before it opens the rest
      message, and opens the message before it installs the click handler. */
  lemma SleepingContinuationOrder(o: Options)
    requires o.initialStatus.Sleep?
    ensures var t := CallbackEffects(InitialCallback, o);
            && Before(t, TipsClear, StatusOpen(RestMessage))
            && Before(t, StatusOpen(RestMessage), SetRestClickHandler(RestClickEffects()))
  {
    var t := CallbackEffects(InitialCallback, o);
    assert t[0] == TipsClear && t[1] == StatusOpen(RestMessage);
    assert t[2] == SetRestClickHandler(RestClickEffects());
  }

  /** The effects of the click handler a sleeping first load installs: it
      slides the stage in, closes the status bar, and removes the status bar's
      hover handler and, last, its own click handler. */
  function RestClickEffects(): (t: seq<Effect>)
    ensures |t| > 0 && t[0] == SlideIn
    ensures StatusClose in t && StatusClearHover in t
    ensures t[|t| - 1] == StatusClearClick
    ensures StatusClearClick !in t[..|t| - 1]
  {
    [SlideIn, StatusClose, StatusClearHover, StatusClearClick]
  }

  /** What runs once the build has settled, whether it succeeded or not. */
  function SettledEffects(): seq<Effect> {
    [Mount, MenusReload, TipsReload, SettingModel, ReloadStyle, Resize, HideLoading]
  }

  /** The effects of the build path, from clearing the tooltip to the
      continuation, for a build of (`mi`, `ci`) that succeeds exactly when
      `built` holds. */
  function BuildPathEffects(mi: int, ci: int, built: bool, cb: seq<Effect>): (t: seq<Effect>)
    ensures var f := if built then 0 else 1;
            && |t| == 4 + f + |SettledEffects()| + |cb|
            && t[0] == TipsClear && t[1] == SlideOut && t[2] == ShowLoading && t[3] == Build(mi, ci)
            && (!built ==> t[4] == LoadingErrorRetryReload)
            && (forall j :: 0 <= j < |SettledEffects()| ==> t[4 + f + j] == SettledEffects()[j])
            && t[4 + f + |SettledEffects()|..] == cb
  {
    var failure := if built then [] else [LoadingErrorRetryReload];
    [TipsClear, SlideOut, ShowLoading, Build(mi, ci)] + failure + SettledEffects() + cb
  }

  /** `e` is one of the fixed steps that open the build path. */
  predicate IsStartStep(e: Effect, mi: int, ci: int) {
    e == TipsClear || e == SlideOut || e == ShowLoading || e == Build(mi, ci)
  }

  /** `e` is one of the steps that run once the build has settled. */
  predicate IsSettledStep(e: Effect) {
    || e == Mount || e == MenusReload || e == TipsReload || e == SettingModel
    || e == ReloadStyle || e == Resize || e == HideLoading
  }

  /** What the build path issues: its fixed steps, the error visual exactly on
      failure, the settled steps, and the continuation's effects. */
  lemma BuildPathMembers(mi: int, ci: int, built: bool, cb: seq<Effect>, e: Effect)
    ensures e in BuildPathEffects(mi, ci, built, cb) <==>
              || IsStartStep(e, mi, ci)
              || (!built && e == LoadingErrorRetryReload)
              || IsSettledStep(e)
              || e in cb
  {
    var failure := if built then [] else [LoadingErrorRetryReload];
    assert BuildPathEffects(mi, ci, built, cb) ==
             [TipsClear, SlideOut, ShowLoading, Build(mi, ci)] + failure + SettledEffects() + cb;
    assert e in SettledEffects() <==> IsSettledStep(e);
  }

  /** The build path attempts exactly one selection, the given one. */
  lemma BuildPathBuilds(mi: int, ci: int, built: bool, cb: seq<Effect>)
    requires forall e :: e in cb ==> !e.Build?
    ensures BuildAttempted(BuildPathEffects(mi, ci, built, cb))
    ensures BuildsOnly(BuildPathEffects(mi, ci, built, cb), mi, ci)
  {
    var t := BuildPathEffects(mi, ci, built, cb);
    assert t[3].Build?;
    forall i | 0 <= i < |t| && t[i].Build?
      ensures t[i] == Build(mi, ci)
    {
      BuildPathMembers(mi, ci, built, cb, t[i]);
    }
  }

  /** The load pipeline. It only reads the widget: the selection it builds is
      the copy held by the renderable manager. */
  function LoadModel(w: Widget, env: Env, k: Callback): (t: seq<Effect>)
    ensures |t| >= 2 && t[0] == TipsClear && t[1] == SlideOut
    ensures |w.options.models| == 0 ==> t == [TipsClear, SlideOut]
    ensures |w.options.models| > 0 && MobileHidden(w.options, env.windowSize) ==>
              t == [TipsClear, SlideOut, StatusRest]
    ensures BuildAttempted(t) <==> OnBuildPath(w, env)
    ensures BuildsOnly(t, w.models.modelIndex, w.models.modelClothesIndex)
    ensures OnBuildPath(w, env) ==>
              t == BuildPathEffects(w.models.modelIndex, w.models.modelClothesIndex,
                                    env.build(w.models.modelIndex, w.models.modelClothesIndex),
                                    CallbackEffects(k, w.options))
  {
    var prefix := [TipsClear, SlideOut];
    if |w.options.models| == 0 then
      prefix
    else if MobileHidden(w.options, env.windowSize) then
      prefix + [StatusRest]
    else
      var mi := w.models.modelIndex;
      var ci := w.models.modelClothesIndex;
      BuildPathBuilds(mi, ci, env.build(mi, ci), CallbackEffects(k, w.options));
      BuildPathEffects(mi, ci, env.build(mi, ci), CallbackEffects(k, w.options))
  }

  /** On the build path the error visual follows the build's outcome, and the
      settled steps and the continuation run either way. */
  lemma BuildPathRunSettles(w: Widget, env: Env, k: Callback)
    requires OnBuildPath(w, env)
    ensures var t := LoadModel(w, env, k);
            && (LoadingErrorRetryReload in t <==> !env.build(w.models.modelIndex, w.models.modelClothesIndex))
            && (forall e :: e in SettledEffects() ==> e in t)
            && (forall e :: e in CallbackEffects(k, w.options) ==> e in t)
  {
    var t := LoadModel(w, env, k);
    BuildPathRunMembers(w, env, k, LoadingErrorRetryReload);
    forall e | e in SettledEffects() || e in CallbackEffects(k, w.options)
      ensures e in t
    {
      BuildPathRunMembers(w, env, k, e);
    }
  }

  /** A build failure never escapes the pipeline: the error visual, whose retry
      re-runs the reload operation, is raised exactly when the build path is
      taken and the build fails, and even then the settled steps and the
      continuation all run. An early exit never slides the stage in. */
  lemma LoadModelContainsFailure(w: Widget, env: Env, k: Callback)
    ensures var t := LoadModel(w, env, k);
            && (LoadingErrorRetryReload in t <==>
                  OnBuildPath(w, env) && !env.build(w.models.modelIndex, w.models.modelClothesIndex))
            && (OnBuildPath(w, env) ==>
                  && (forall e :: e in SettledEffects() ==> e in t)
                  && (forall e :: e in CallbackEffects(k, w.options) ==> e in t))
            && (SlideIn in t ==> OnBuildPath(w, env))
  {
    if OnBuildPath(w, env) {
      BuildPathRunSettles(w, env, k);
    } else {
      EarlyExitMembers(w, env, k, LoadingErrorRetryReload);
      EarlyExitMembers(w, env, k, SlideIn);
    }
  }

  /** A first load slides the stage in exactly when it takes the build path
      and the widget does not start asleep. */
  lemma InitialSlideIn(w: Widget, env: Env)
    ensures SlideIn in LoadModel(w, env, InitialCallback) <==>
              OnBuildPath(w, env) && w.options.initialStatus.Active?
  {
    if OnBuildPath(w, env) {
      BuildPathRunMembers(w, env, InitialCallback, SlideIn);
    } else {
      EarlyExitMembers(w, env, InitialCallback, SlideIn);
    }
  }

  /** A first load opens the rest message exactly when it takes the build
      path and the widget starts asleep. */
  lemma InitialRestMessage(w: Widget, env: Env)
    ensures StatusOpen(RestMessage) in LoadModel(w, env, InitialCallback) <==>
              OnBuildPath(w, env) && w.options.initialStatus.Sleep?
  {
    if OnBuildPath(w, env) {
      BuildPathRunMembers(w, env, InitialCallback, StatusOpen(RestMessage));
    } else {
      EarlyExitMembers(w, env, InitialCallback, StatusOpen(RestMessage));
    }
  }

  /** A first load installs the rest click handler exactly when it takes the
      build path and the widget starts asleep. */
  lemma InitialRestClick(w: Widget, env: Env)
    ensures SetRestClickHandler(RestClickEffects()) in LoadModel(w, env, InitialCallback) <==>
              OnBuildPath(w, env) && w.options.initialStatus.Sleep?
  {
    if OnBuildPath(w, env) {
      BuildPathRunMembers(w, env, InitialCallback, SetRestClickHandler(RestClickEffects()));
    } else {
      EarlyExitMembers(w, env, InitialCallback, SetRestClickHandler(RestClickEffects()));
    }
  }

  /** The start of the build path: tooltip cleared, then stage out, then the
      loading visual, then the build. */
  lemma LoadModelStartOrder(w: Widget, env: Env, k: Callback)
    requires OnBuildPath(w, env)
    ensures var t := LoadModel(w, env, k);
            var b := Build(w.models.modelIndex, w.models.modelClothesIndex);
            && Before(t, TipsClear, SlideOut)
            && Before(t, SlideOut, ShowLoading)
            && Before(t, ShowLoading, b)
  {
    var t := LoadModel(w, env, k);
    assert t[0] == TipsClear && t[1] == SlideOut && t[2] == ShowLoading;
  }

  /** Mount, decoration reload, model setup, restyle, resize and hiding the
      loading visual all follow the build, whether it succeeded or not. */
  lemma LoadModelSettlesAfterBuild(w: Widget, env: Env, k: Callback)
    requires OnBuildPath(w, env)
    ensures var t := LoadModel(w, env, k);
            forall e :: e in SettledEffects() ==> Before(t, Build(w.models.modelIndex, w.models.modelClothesIndex), e)
  {
    var t := LoadModel(w, env, k);
    var mi := w.models.modelIndex;
    var ci := w.models.modelClothesIndex;
    var f := if env.build(mi, ci) then 0 else 1;
    assert t[3] == Build(mi, ci);
    forall e | e in SettledEffects()
      ensures Before(t, Build(mi, ci), e)
    {
      var j :| 0 <= j < |SettledEffects()| && SettledEffects()[j] == e;
      assert t[4 + f + j] == e;
    }
  }

  /** A failed build's error visual comes after the build and before the mount. */
  lemma LoadModelErrorBeforeMount(w: Widget, env: Env, k: Callback)
    requires OnBuildPath(w, env)
    requires !env.build(w.models.modelIndex, w.models.modelClothesIndex)
    ensures var t := LoadModel(w, env, k);
            && Before(t, Build(w.models.modelIndex, w.models.modelClothesIndex), LoadingErrorRetryReload)
            && Before(t, LoadingErrorRetryReload, Mount)
  {
    var t := LoadModel(w, env, k);
    assert t[3] == Build(w.models.modelIndex, w.models.modelClothesIndex);
    assert t[4] == LoadingErrorRetryReload;
    assert t[5] == SettledEffects()[0];
  }

  /** The continuation's effects close the trace of the build path. */
  lemma LoadModelCallbackLast(w: Widget, env: Env, k: Callback)
    requires OnBuildPath(w, env)
    ensures var t := LoadModel(w, env, k);
            && |CallbackEffects(k, w.options)| <= |t|
            && t[|t| - |CallbackEffects(k, w.options)|..] == CallbackEffects(k, w.options)
  {
  }

  /** What a pipeline run that exits early issues. */
  lemma EarlyExitMembers(w: Widget, env: Env, k: Callback, e: Effect)
    requires !OnBuildPath(w, env)
    ensures e in LoadModel(w, env, k) <==>
              e == TipsClear || e == SlideOut || (|w.options.models| > 0 && e == StatusRest)
  {
  }

  /** What a pipeline run on the build path issues. */
  lemma BuildPathRunMembers(w: Widget, env: Env, k: Callback, e: Effect)
    requires OnBuildPath(w, env)
    ensures var mi := w.models.modelIndex;
            var ci := w.models.modelClothesIndex;
            e in LoadModel(w, env, k) <==>
              || IsStartStep(e, mi, ci)
              || (!env.build(mi, ci) && e == LoadingErrorRetryReload)
              || IsSettledStep(e)
              || e in CallbackEffects(k, w.options)
  {
    var mi := w.models.modelIndex;
    var ci := w.models.modelClothesIndex;
    BuildPathMembers(mi, ci, env.build(mi, ci), CallbackEffects(k, w.options), e);
  }

  /** The build path issues neither the switching message nor the idle start
      when its continuation does not. */
  lemma BuildPathLeavesOut(mi: int, ci: int, built: bool, cb: seq<Effect>, e: Effect)
    requires e == StatusOpen(SwitchingMessage) || e == IdleStart
    requires e !in cb
    ensures e !in BuildPathEffects(mi, ci, built, cb)
  {
    BuildPathMembers(mi, ci, built, cb, e);
  }

  lemma BuildPathRunLeavesOut(w: Widget, env: Env, k: Callback, e: Effect)
    requires OnBuildPath(w, env)
    requires e == StatusOpen(SwitchingMessage) || e == IdleStart
    ensures e !in LoadModel(w, env, k)
  {
    var mi := w.models.modelIndex;
    var ci := w.models.modelClothesIndex;
    BuildPathLeavesOut(mi, ci, env.build(mi, ci), CallbackEffects(k, w.options), e);
  }

  /** The pipeline itself never opens the switching message and never starts
      the idle player: both belong to the public operations around it. */
  lemma LoadModelLeavesOutSwitchSteps(w: Widget, env: Env, k: Callback)
    ensures StatusOpen(SwitchingMessage) !in LoadModel(w, env, k)
    ensures IdleStart !in LoadModel(w, env, k)
  {
    if OnBuildPath(w, env) {
      BuildPathRunLeavesOut(w, env, k, StatusOpen(SwitchingMessage));
      BuildPathRunLeavesOut(w, env, k, IdleStart);
    } else {
      EarlyExitMembers(w, env, k, StatusOpen(SwitchingMessage));
      EarlyExitMembers(w, env, k, IdleStart);
    }
  }
}

=== FILE: properties.dfy ===
/** Properties that relate several runs of the switch operations: circularity
    of the model and clothes rotation, the invariants any sequence of calls
    keeps, and what the retry bound to a failed build does.
 */
module SwitchProperties {
  import opened Effects
  import opened Selection
  import opened Pipeline
  import opened Switching

  /** `a` modulo `n`, by repeated subtraction. */
  function Wrap(a: nat, n: nat): (r: nat)
    requires n > 0
    ensures r < n
    decreases a
  {
    if a < n then a else Wrap(a - n, n)
  }

  /** Adding one and wrapping at `n` is addition modulo `n`. */
  lemma {:induction false} WrapSucc(a: nat, n: nat)
    requires n > 0
    ensures Wrap(a + 1, n) == NextIndex(Wrap(a, n), n)
    decreases a
  {
    if a + 1 < n {
    } else if a + 1 == n {
      assert Wrap(a + 1, n) == Wrap(0, n);
    } else {
      WrapSucc(a - n, n);
      assert Wrap(a + 1, n) == Wrap(a - n + 1, n);
    }
  }

  /** Going once around comes back. */
  lemma WrapSelf(i: nat, n: nat)
    requires i < n
    ensures Wrap(i + n, n) == i
  {
    assert Wrap(i + n, n) == Wrap(i, n);
  }

  /** The widget after `k` calls of the next-model operation; each call leaves
      the widget its setters produce, whatever the pipeline does. */
  function NextModelTimes(w: Widget, k: nat): Widget
    decreases k
  {
    if k == 0 then w else NextModelSetters(NextModelTimes(w, k - 1)).widget
  }

  /** One next-model call on an index that is `a` modulo the model count. */
  lemma NextModelStep(prev: Widget, a: nat)
    requires |prev.options.models| > 0
    requires prev.currentModelIndex == Wrap(a, |prev.options.models|)
    ensures NextModelSetters(prev).widget.options == prev.options
    ensures NextModelSetters(prev).widget.currentModelIndex == Wrap(a + 1, |prev.options.models|)
  {
    WrapSucc(a, |prev.options.models|);
  }

  /** From an in-range index, `k` next-model calls advance it by `k` modulo the
      model count. */
  lemma {:induction false} NextModelAdvances(w: Widget, k: nat)
    requires 0 <= w.currentModelIndex < |w.options.models|
    ensures NextModelTimes(w, k).options == w.options
    ensures NextModelTimes(w, k).currentModelIndex == Wrap(w.currentModelIndex + k, |w.options.models|)
  {
    if k > 0 {
      NextModelAdvances(w, k - 1);
      NextModelStep(NextModelTimes(w, k - 1), w.currentModelIndex + (k - 1));
    }
  }

  /** Calling the next-model operation once per model comes back to the start. */
  lemma NextModelCircular(w: Widget)
    requires 0 <= w.currentModelIndex < |w.options.models|
    ensures NextModelTimes(w, |w.options.models|).currentModelIndex == w.currentModelIndex
  {
    NextModelAdvances(w, |w.options.models|);
    WrapSelf(w.currentModelIndex, |w.options.models|);
  }

  /** The current model's path is an array (of any length, including one or
      none), so the next-clothes call advances the clothes and runs the pipeline. */
  predicate HasVariants(w: Widget) {
    0 <= w.currentModelIndex < |w.options.models| && w.options.models[w.currentModelIndex].path.Variants?
  }

  function VariantCount(w: Widget): nat
    requires HasVariants(w)
  {
    |w.options.models[w.currentModelIndex].path.paths|
  }

  /** The widget after `k` calls of the next-clothes operation on a model with
      `count` clothes; each call leaves the widget its setters produce. */
  function NextClothesTimes(w: Widget, count: nat, k: nat): Widget
    decreases k
  {
    if k == 0 then w else NextClothesSetters(NextClothesTimes(w, count, k - 1), count).widget
  }

  /** One next-clothes call on a clothes index that is `a` modulo the count. */
  lemma NextClothesStep(prev: Widget, count: nat, a: nat)
    requires count > 0
    requires prev.currentModelClothesIndex == Wrap(a, count)
    ensures NextClothesSetters(prev, count).widget.options == prev.options
    ensures NextClothesSetters(prev, count).widget.currentModelIndex == prev.currentModelIndex
    ensures NextClothesSetters(prev, count).widget.currentModelClothesIndex == Wrap(a + 1, count)
  {
    WrapSucc(a, count);
  }

  /** On a model whose path is an array of `count` clothes, `k` next-clothes calls leave the model
      index alone and advance an in-range clothes index by `k` modulo their count. */
  lemma {:induction false} NextClothesAdvances(w: Widget, count: nat, k: nat)
    requires 0 <= w.currentModelClothesIndex < count
    ensures NextClothesTimes(w, count, k).options == w.options
    ensures NextClothesTimes(w, count, k).currentModelIndex == w.currentModelIndex
    ensures NextClothesTimes(w, count, k).currentModelClothesIndex == Wrap(w.currentModelClothesIndex + k, count)
  {
    if k > 0 {
      NextClothesAdvances(w, count, k - 1);
      NextClothesStep(NextClothesTimes(w, count, k - 1), count, w.currentModelClothesIndex + (k - 1));
    }
  }

  /** Calling the next-clothes operation once per clothes comes back to the start. */
  lemma NextClothesCircular(w: Widget)
    requires HasVariants(w)
    requires 0 <= w.currentModelClothesIndex < VariantCount(w)
    ensures NextClothesTimes(w, VariantCount(w), VariantCount(w)).currentModelClothesIndex == w.currentModelClothesIndex
    ensures NextClothesTimes(w, VariantCount(w), VariantCount(w)).currentModelIndex == w.currentModelIndex
  {
    NextClothesAdvances(w, VariantCount(w), VariantCount(w));
    WrapSelf(w.currentModelClothesIndex, VariantCount(w));
  }

  /** The public operations a host can call. */
  datatype Request =
    | Reload
    | Random
    | Next
    | Specific(modelIndex: int, clothesIndex: Option<int>)
    | NextClothes

  /** One call, made under the environment of its moment. */
  datatype Call = Call(env: Env, request: Request)

  function Apply(w: Widget, c: Call): Run {
    match c.request
    case Reload => ReloadModel(w, c.env)
    case Random => LoadRandomModel(w, c.env)
    case Next => LoadNextModel(w, c.env)
    case Specific(m, ci) => LoadSpecificModel(w, c.env, m, ci)
    case NextClothes => LoadNextModelClothes(w, c.env)
  }

  /** Runs the calls one after the other, each to completion. */
  function ApplyAll(w: Widget, calls: seq<Call>): Widget
    decreases |calls|
  {
    if |calls| == 0 then w else ApplyAll(Apply(w, calls[0]).widget, calls[1..])
  }

  /** One call keeps the copies equal, never changes the options, builds only
      the selection it leaves behind, and rejects only when the next-clothes
      operation reads a model index outside the list. */
  lemma ApplyKeepsMirrors(w: Widget, c: Call)
    requires Mirrored(w)
    ensures var r := Apply(w, c);
            && Mirrored(r.widget)
            && r.widget.options == w.options
            && (r.outcome == Rejected <==>
                  c.request.NextClothes? && !(0 <= w.currentModelIndex < |w.options.models|))
            && BuildsOnly(r.trace, r.widget.currentModelIndex, r.widget.currentModelClothesIndex)
  {
  }

  /** From construction on, whatever sequence of calls the host makes, the
      stage, renderable manager and store hold the controller's indices, and
      the options stay those the widget was constructed with. */
  lemma {:induction false} CallsKeepMirrors(w: Widget, calls: seq<Call>)
    requires Mirrored(w)
    ensures Mirrored(ApplyAll(w, calls))
    ensures ApplyAll(w, calls).options == w.options
    decreases |calls|
  {
    if |calls| > 0 {
      ApplyKeepsMirrors(w, calls[0]);
      CallsKeepMirrors(Apply(w, calls[0]).widget, calls[1..]);
    }
  }

  /** The construction-time invariant: every reachable widget is mirrored. */
  lemma ReachableIsMirrored(options: Options, stage: StageView, models: ModelsView, stored: Store, calls: seq<Call>)
    ensures Mirrored(ApplyAll(Construct(options, stage, models, stored).widget, calls))
  {
    CallsKeepMirrors(Construct(options, stage, models, stored).widget, calls);
  }

  /** The call runs the load pipeline: every call except a specific switch to
      an index outside the list and a next-clothes call on a model that is not
      in the list or whose path is a string. */
  predicate RunsPipeline(w: Widget, request: Request) {
    match request
    case Specific(m, _) => 0 <= m < |w.options.models|
    case NextClothes => HasVariants(w)
    case _ => true
  }

  /** What the error visual, the slide-in, the switching message and the idle
      start say about a run whose pipeline builds (`m`, `c`). */
  ghost predicate ShowsPipeline(t: seq<Effect>, runs: bool, w: Widget, env: Env, m: int, c: int,
                                message: bool, idle: bool) {
    && (LoadingErrorRetryReload in t <==> runs && OnBuildPath(w, env) && !env.build(m, c))
    && (SlideIn in t <==> runs && OnBuildPath(w, env))
    && (StatusOpen(SwitchingMessage) in t <==> runs && message)
    && (IdleStart in t <==> runs && idle && env.idlePlayer)
  }

  /** Store writes in front of a switch tail change none of those steps. */
  lemma SettersThenSwitch(s: Step, env: Env)
    requires StoreWritesOnly(s.trace) && Mirrored(s.widget)
    ensures ShowsPipeline(s.trace + SwitchEffects(s.widget, env), true, s.widget, env,
                          s.widget.currentModelIndex, s.widget.currentModelClothesIndex, true, true)
  {
    var tail := SwitchEffects(s.widget, env);
    AfterStoreWrites(s.trace, tail, LoadingErrorRetryReload);
    AfterStoreWrites(s.trace, tail, SlideIn);
    AfterStoreWrites(s.trace, tail, StatusOpen(SwitchingMessage));
    AfterStoreWrites(s.trace, tail, IdleStart);
  }

  lemma RandomShowsPipeline(w: Widget, env: Env)
    ensures var r := LoadRandomModel(w, env);
            ShowsPipeline(r.trace, true, w, env,
                          r.widget.currentModelIndex, r.widget.currentModelClothesIndex, true, true)
  {
    SettersThenSwitch(RandomSetters(w, env), env);
  }

  lemma NextShowsPipeline(w: Widget, env: Env)
    ensures var r := LoadNextModel(w, env);
            ShowsPipeline(r.trace, true, w, env,
                          r.widget.currentModelIndex, r.widget.currentModelClothesIndex, true, true)
  {
    SettersThenSwitch(NextModelSetters(w), env);
  }

  lemma SpecificShowsPipeline(w: Widget, env: Env, m: int, ci: Option<int>)
    ensures var r := LoadSpecificModel(w, env, m, ci);
            ShowsPipeline(r.trace, 0 <= m < |w.options.models|, w, env,
                          r.widget.currentModelIndex, r.widget.currentModelClothesIndex, true, true)
  {
    if 0 <= m < |w.options.models| {
      SettersThenSwitch(SpecificSetters(w, m, ci), env);
    }
  }

  lemma ReloadShowsPipeline(w: Widget, env: Env)
    requires Mirrored(w)
    ensures ShowsPipeline(ReloadModel(w, env).trace, true, w, env,
                          w.currentModelIndex, w.currentModelClothesIndex, false, true)
  {
  }

  lemma NextClothesShowsPipeline(w: Widget, env: Env)
    requires Mirrored(w)
    ensures var r := LoadNextModelClothes(w, env);
            ShowsPipeline(r.trace, HasVariants(w), w, env,
                          r.widget.currentModelIndex, r.widget.currentModelClothesIndex, false, false)
  {
    if HasVariants(w) {
      var s := NextClothesSetters(w, VariantCount(w));
      var tail := LoadModel(s.widget, env, SlideInCallback);
      LoadModelContainsFailure(s.widget, env, SlideInCallback);
      LoadModelLeavesOutSwitchSteps(s.widget, env, SlideInCallback);
      assert SlideIn in CallbackEffects(SlideInCallback, s.widget.options);
      AfterStoreWrites(s.trace, tail, LoadingErrorRetryReload);
      AfterStoreWrites(s.trace, tail, SlideIn);
      AfterStoreWrites(s.trace, tail, StatusOpen(SwitchingMessage));
      AfterStoreWrites(s.trace, tail, IdleStart);
    }
  }

  /** Every public call that runs the pipeline raises the error visual with
      its retry exactly when the build of the selection it leaves fails on the
      build path, and slides the stage in exactly when it reaches the build
      path. The three model switches open the switching message; every call
      but the next-clothes one starts the idle player when there is one. A
      call that does not run the pipeline issues none of these. */
  lemma CallRunsPipeline(w: Widget, c: Call)
    requires Mirrored(w)
    ensures var r := Apply(w, c);
            ShowsPipeline(r.trace, RunsPipeline(w, c.request), w, c.env,
                          r.widget.currentModelIndex, r.widget.currentModelClothesIndex,
                          !c.request.Reload? && !c.request.NextClothes?, !c.request.NextClothes?)
  {
    match c.request
    case Reload => ReloadShowsPipeline(w, c.env);
    case Random => RandomShowsPipeline(w, c.env);
    case Next => NextShowsPipeline(w, c.env);
    case Specific(m, ci) => SpecificShowsPipeline(w, c.env, m, ci);
    case NextClothes => NextClothesShowsPipeline(w, c.env);
  }

  /** The random helper returns an index inside the model list. */
  ghost predicate RandomInRange(env: Env, count: nat) {
    forall i :: 0 <= env.randomIndex(count, i) < count
  }

  /** With a non-empty model list, an in-range model index stays in range
      through any sequence of calls whose random helper stays in range. */
  lemma {:induction false} CallsKeepModelInRange(w: Widget, calls: seq<Call>)
    requires 0 <= w.currentModelIndex < |w.options.models|
    requires forall i :: 0 <= i < |calls| ==> RandomInRange(calls[i].env, |w.options.models|)
    ensures 0 <= ApplyAll(w, calls).currentModelIndex < |w.options.models|
    ensures ApplyAll(w, calls).options == w.options
    decreases |calls|
  {
    if |calls| > 0 {
      var w' := Apply(w, calls[0]).widget;
      assert RandomInRange(calls[0].env, |w.options.models|);
      assert 0 <= w'.currentModelIndex < |w.options.models|;
      assert forall i :: 0 <= i < |calls[1..]| ==> calls[1..][i] == calls[i + 1];
      CallsKeepModelInRange(w', calls[1..]);
    }
  }

  /** The retry bound to a failed build reruns the reload operation on the
      widget the failure left behind: whatever the build does this time, it
      keeps the selection and attempts the same model and clothes again,
      provided the window classification has not changed. */
  lemma RetryRebuildsSameSelection(w: Widget, env: Env, retryEnv: Env, k: Callback)
    requires LoadingErrorRetryReload in LoadModel(w, env, k)
    requires retryEnv.windowSize == env.windowSize
    ensures ReloadModel(w, retryEnv).widget == w
    ensures Build(w.models.modelIndex, w.models.modelClothesIndex) in ReloadModel(w, retryEnv).trace
  {
    var t := ReloadModel(w, retryEnv).trace;
    LoadModelContainsFailure(w, env, k);
    assert OnBuildPath(w, retryEnv);
    var i :| 0 <= i < |t| && t[i].Build?;
  }
}

=== FILE: selection.dfy ===
/** The selection state of the widget controller and the two index setters that
    mirror it into the stage, the renderable manager and the persistent store.
 */
module Selection {
  import opened Effects

  /** A model's asset path: a single string, or an array of selectable
      "clothes" of any length, including one or none. */
  datatype ModelPath = Single(path: string) | Variants(paths: seq<string>)

  datatype ModelOptions = ModelOptions(path: ModelPath)

  datatype InitialStatus = Active | Sleep

  /** The resolved options the controller reads; fixed for the session. */
  datatype Options = Options(models: seq<ModelOptions>, mobileDisplay: bool, initialStatus: InitialStatus)

  /** The parts of the collaborators that hold a copy of the selection. */
  datatype StageView = StageView(modelIndex: int)
  datatype ModelsView = ModelsView(modelIndex: int, modelClothesIndex: int)
  datatype Store = Store(modelIndex: int, modelClothesIndex: int)

  datatype Widget = Widget(
    options: Options,
    currentModelIndex: int,
    currentModelClothesIndex: int,
    stage: StageView,
    models: ModelsView,
    store: Store)

  /** A widget together with the effects that produced it. */
  datatype Step = Step(widget: Widget, trace: seq<Effect>)

  /** Every copy of the model index agrees with the controller's own. */
  predicate ModelIndexMirrored(w: Widget) {
    && w.stage.modelIndex == w.currentModelIndex
    && w.models.modelIndex == w.currentModelIndex
    && w.store.modelIndex == w.currentModelIndex
  }

  /** Every copy of the clothes index agrees with the controller's own. */
  predicate ClothesIndexMirrored(w: Widget) {
    && w.models.modelClothesIndex == w.currentModelClothesIndex
    && w.store.modelClothesIndex == w.currentModelClothesIndex
  }

  predicate Mirrored(w: Widget) {
    ModelIndexMirrored(w) && ClothesIndexMirrored(w)
  }

  /** The model-index setter: writes the controller, stage, renderable manager
      and store copies, and nothing that concerns the clothes. */
  function SetModelIndex(w: Widget, index: int): (r: Step)
    ensures r.widget.currentModelIndex == index
    ensures ModelIndexMirrored(r.widget)
    ensures ClothesIndexMirrored(r.widget) <==> ClothesIndexMirrored(w)
    ensures r.widget.options == w.options
    ensures r.widget.currentModelClothesIndex == w.currentModelClothesIndex
    ensures r.widget.models.modelClothesIndex == w.models.modelClothesIndex
    ensures r.widget.store.modelClothesIndex == w.store.modelClothesIndex
    ensures r.trace == [StoreModelIndex(index)]
  {
    Step(
      w.(currentModelIndex := index,
         stage := w.stage.(modelIndex := index),
         models := w.models.(modelIndex := index),
         store := w.store.(modelIndex := index)),
      [StoreModelIndex(index)])
  }

  /** The clothes-index setter: writes the controller, renderable manager and
      store copies; the stage keeps no clothes index and is left alone. */
  function SetModelClothesIndex(w: Widget, index: int): (r: Step)
    ensures r.widget.currentModelClothesIndex == index
    ensures ClothesIndexMirrored(r.widget)
    ensures ModelIndexMirrored(r.widget) <==> ModelIndexMirrored(w)
    ensures r.widget.options == w.options
    ensures r.widget.currentModelIndex == w.currentModelIndex
    ensures r.widget.stage == w.stage
    ensures r.widget.models.modelIndex == w.models.modelIndex
    ensures r.widget.store.modelIndex == w.store.modelIndex
    ensures r.trace == [StoreClothesIndex(index)]
  {
    Step(
      w.(currentModelClothesIndex := index,
         models := w.models.(modelClothesIndex := index),
         store := w.store.(modelClothesIndex := index)),
      [StoreClothesIndex(index)])
  }

  /** Construction: the collaborators start with whatever indices they hold;
      the stored indices are read back and written through both setters. */
  function Construct(options: Options, stage: StageView, models: ModelsView, stored: Store): (r: Step)
    ensures Mirrored(r.widget)
    ensures r.widget.options == options
    ensures r.widget.currentModelIndex == stored.modelIndex
    ensures r.widget.currentModelClothesIndex == stored.modelClothesIndex
    ensures r.widget.store == stored
  {
    var w0 := Widget(options, 0, 0, stage, models, stored);
    var s1 := SetModelIndex(w0, stored.modelIndex);
    var s2 := SetModelClothesIndex(s1.widget, stored.modelClothesIndex);
    Step(s2.widget, s1.trace + s2.trace)
  }
}

=== FILE: switching.dfy ===
/** The public switch operations of the widget controller. Each one adjusts the
    selection through the setters and then runs the shared load pipeline. Each
    run is taken to complete before the next call starts: interleavings of
    overlapping switches are not modelled.
 */
module Switching {
  import opened Effects
  import opened Selection
  import opened Pipeline

  datatype Option<T> = None | Some(value: T) {
    function GetOr(default: T): T {
      match this
      case Some(v) => v
      case None => default
    }
  }

  /** How the promise an operation returns settles. */
  datatype Outcome = Resolved | Rejected

  datatype Run = Run(widget: Widget, trace: seq<Effect>, outcome: Outcome)

  /** The index that follows `index` among `count` models or clothes: one more,
      wrapping to 0 once that reaches the count. */
  function NextIndex(index: int, count: nat): (n: int)
    ensures 0 <= n < count <==> count > 0 && -1 <= index
    ensures index + 1 < count ==> n == index + 1
    ensures index + 1 >= count ==> n == 0
    ensures 0 <= index < count ==> n == (index + 1) % count
  {
    if index + 1 >= count then 0 else index + 1
  }

  /** The idle tooltip player is started after the pipeline, when there is one. */
  function IdleEffects(env: Env): seq<Effect> {
    if env.idlePlayer then [IdleStart] else []
  }

  /** Setter writes followed by a pipeline run: the builds are the pipeline's. */
  lemma SettersThenPipeline(s: Step, tail: seq<Effect>, m: int, c: int)
    requires !BuildAttempted(s.trace) && BuildsOnly(tail, m, c)
    ensures BuildAttempted(s.trace + tail) <==> BuildAttempted(tail)
    ensures BuildsOnly(s.trace + tail, m, c)
    ensures (s.trace + tail)[|s.trace|..] == tail
  {
    BuildsConcat(s.trace, tail, m, c);
  }

  /** The pipeline with a slide-in continuation, followed by the idle player. */
  function PipelineThenIdle(w: Widget, env: Env): seq<Effect> {
    LoadModel(w, env, SlideInCallback) + IdleEffects(env)
  }

  /** Which of the failure, slide-in, idle and switching steps a reload issues. */
  lemma PipelineThenIdleMembers(w: Widget, env: Env)
    ensures var t := PipelineThenIdle(w, env);
            && (LoadingErrorRetryReload in t <==>
                  OnBuildPath(w, env) && !env.build(w.models.modelIndex, w.models.modelClothesIndex))
            && (SlideIn in t <==> OnBuildPath(w, env))
            && (IdleStart in t <==> env.idlePlayer)
            && StatusOpen(SwitchingMessage) !in t
  {
    LoadModelContainsFailure(w, env, SlideInCallback);
    LoadModelLeavesOutSwitchSteps(w, env, SlideInCallback);
    assert SlideIn in CallbackEffects(SlideInCallback, w.options);
  }

  /** A reload builds what its pipeline builds, which is its first part. */
  lemma PipelineThenIdleBuilds(w: Widget, env: Env)
    ensures var t := PipelineThenIdle(w, env);
            && |IdleEffects(env)| <= |t|
            && t[..|t| - |IdleEffects(env)|] == LoadModel(w, env, SlideInCallback)
            && (env.idlePlayer ==> t[|t| - 1] == IdleStart)
            && (BuildAttempted(t) <==> OnBuildPath(w, env))
            && BuildsOnly(t, w.models.modelIndex, w.models.modelClothesIndex)
  {
    var l := LoadModel(w, env, SlideInCallback);
    BuildsConcat(l, IdleEffects(env), w.models.modelIndex, w.models.modelClothesIndex);
    assert (l + IdleEffects(env))[..|l|] == l;
  }

  /** Replays the current selection: the pipeline with a slide-in
      continuation, then the idle player. It is also what the retry of the
      error visual runs. */
  function ReloadModel(w: Widget, env: Env): (r: Run)
    ensures r.widget == w
    ensures r.outcome == Resolved
    ensures |IdleEffects(env)| <= |r.trace|
    ensures r.trace[..|r.trace| - |IdleEffects(env)|] == LoadModel(w, env, SlideInCallback)
    ensures LoadingErrorRetryReload in r.trace <==>
              OnBuildPath(w, env) && !env.build(w.models.modelIndex, w.models.modelClothesIndex)
    ensures SlideIn in r.trace <==> OnBuildPath(w, env)
    ensures IdleStart in r.trace <==> env.idlePlayer
    ensures env.idlePlayer ==> r.trace[|r.trace| - 1] == IdleStart
    ensures StatusOpen(SwitchingMessage) !in r.trace
    ensures BuildAttempted(r.trace) <==> OnBuildPath(w, env)
    ensures BuildsOnly(r.trace, w.models.modelIndex, w.models.modelClothesIndex)
  {
    PipelineThenIdleMembers(w, env);
    PipelineThenIdleBuilds(w, env);
    Run(w, PipelineThenIdle(w, env), Resolved)
  }

  /** The switching message followed by a reload of the current selection. */
  function MessageThenReload(w: Widget, env: Env): seq<Effect> {
    [StatusOpen(SwitchingMessage)] + ReloadModel(w, env).trace
  }

  /** The message adds no failure, slide-in or idle step to the reload. */
  lemma MessageThenReloadMembers(w: Widget, env: Env)
    ensures var t := MessageThenReload(w, env);
            && (LoadingErrorRetryReload in t <==>
                  OnBuildPath(w, env) && !env.build(w.models.modelIndex, w.models.modelClothesIndex))
            && (SlideIn in t <==> OnBuildPath(w, env))
            && (IdleStart in t <==> env.idlePlayer)
  {
  }

  /** Putting one message in front of a trace adds no build and keeps its
      last step last. */
  lemma PrependMessage(rest: seq<Effect>, m: int, c: int)
    ensures var t := [StatusOpen(SwitchingMessage)] + rest;
            && t[1..] == rest
            && (|rest| > 0 ==> t[|t| - 1] == rest[|rest| - 1])
            && (BuildAttempted(t) <==> BuildAttempted(rest))
            && (BuildsOnly(t, m, c) <==> BuildsOnly(rest, m, c))
  {
    BuildsConcat([StatusOpen(SwitchingMessage)], rest, m, c);
    assert !BuildAttempted([StatusOpen(SwitchingMessage)]);
  }

  /** The tail every model switch shares: the switching message, then what a
      reload of the new selection runs. */
  function SwitchEffects(w: Widget, env: Env): (t: seq<Effect>)
    ensures |t| > 0 && t[0] == StatusOpen(SwitchingMessage)
    ensures t[1..] == ReloadModel(w, env).trace
    ensures LoadingErrorRetryReload in t <==>
              OnBuildPath(w, env) && !env.build(w.models.modelIndex, w.models.modelClothesIndex)
    ensures SlideIn in t <==> OnBuildPath(w, env)
    ensures IdleStart in t <==> env.idlePlayer
    ensures env.idlePlayer ==> t[|t| - 1] == IdleStart
    ensures BuildAttempted(t) <==> OnBuildPath(w, env)
    ensures BuildsOnly(t, w.models.modelIndex, w.models.modelClothesIndex)
  {
    MessageThenReloadMembers(w, env);
    PrependMessage(ReloadModel(w, env).trace, w.models.modelIndex, w.models.modelClothesIndex);
    MessageThenReload(w, env)
  }

  /** The selection part of the random switch: whatever the random-index helper
      returns is written as the model index, and the clothes are reset. */
  function RandomSetters(w: Widget, env: Env): (s: Step)
    ensures s.widget.currentModelIndex == env.randomIndex(|w.options.models|, w.currentModelIndex)
    ensures s.widget.currentModelClothesIndex == 0
    ensures Mirrored(s.widget)
    ensures s.widget.options == w.options
    ensures StoreWritesOnly(s.trace) && !BuildAttempted(s.trace)
  {
    var s1 := SetModelIndex(w, env.randomIndex(|w.options.models|, w.currentModelIndex));
    var s2 := SetModelClothesIndex(s1.widget, 0);
    StoreWritesConcat(s1.trace, s2.trace);
    Step(s2.widget, s1.trace + s2.trace)
  }

  /** Switches to the model the random-index helper picks. */
  function LoadRandomModel(w: Widget, env: Env): (r: Run)
    ensures r.widget == RandomSetters(w, env).widget
    ensures r.outcome == Resolved
    ensures BuildAttempted(r.trace) <==> OnBuildPath(w, env)
    ensures BuildsOnly(r.trace, r.widget.currentModelIndex, 0)
  {
    var s := RandomSetters(w, env);
    var tail := SwitchEffects(s.widget, env);
    SettersThenPipeline(s, tail, s.widget.currentModelIndex, 0);
    Run(s.widget, s.trace + tail, Resolved)
  }

  /** The selection part of the next-model switch. The model index is first
      written as `old + 1` through the setter and only then reset to 0, so the
      store briefly receives a value outside the model list. */
  function NextModelSetters(w: Widget): (s: Step)
    ensures s.widget.currentModelIndex == NextIndex(w.currentModelIndex, |w.options.models|)
    ensures s.widget.currentModelClothesIndex == 0
    ensures Mirrored(s.widget)
    ensures s.widget.options == w.options
    ensures StoreWritesOnly(s.trace) && !BuildAttempted(s.trace)
    ensures |s.trace| >= 2 && s.trace[0] == StoreModelIndex(w.currentModelIndex + 1)
    ensures w.currentModelIndex + 1 >= |w.options.models| ==> s.trace[1] == StoreModelIndex(0)
  {
    var s1 := SetModelIndex(w, w.currentModelIndex + 1);
    var s2 := if s1.widget.currentModelIndex >= |w.options.models| then SetModelIndex(s1.widget, 0)
              else Step(s1.widget, []);
    var s3 := SetModelClothesIndex(s2.widget, 0);
    StoreWritesConcat(s1.trace, s2.trace);
    StoreWritesConcat(s1.trace + s2.trace, s3.trace);
    Step(s3.widget, s1.trace + s2.trace + s3.trace)
  }

  /** Advances the model index circularly and resets the clothes. */
  function LoadNextModel(w: Widget, env: Env): (r: Run)
    ensures r.widget == NextModelSetters(w).widget
    ensures r.outcome == Resolved
    ensures |NextModelSetters(w).trace| <= |r.trace| && r.trace[..|NextModelSetters(w).trace|] == NextModelSetters(w).trace
    ensures BuildAttempted(r.trace) <==> OnBuildPath(w, env)
    ensures BuildsOnly(r.trace, r.widget.currentModelIndex, 0)
  {
    var s := NextModelSetters(w);
    var tail := SwitchEffects(s.widget, env);
    SettersThenPipeline(s, tail, s.widget.currentModelIndex, 0);
    Run(s.widget, s.trace + tail, Resolved)
  }

  /** The selection part of the specific switch: the model index as given and
      the clothes index as given (not range-checked), or 0 when absent. */
  function SpecificSetters(w: Widget, modelIndex: int, clothesIndex: Option<int>): (s: Step)
    ensures s.widget.currentModelIndex == modelIndex
    ensures s.widget.currentModelClothesIndex == clothesIndex.GetOr(0)
    ensures Mirrored(s.widget)
    ensures s.widget.options == w.options
    ensures StoreWritesOnly(s.trace) && !BuildAttempted(s.trace)
  {
    var s1 := SetModelIndex(w, modelIndex);
    var s2 := SetModelClothesIndex(s1.widget, clothesIndex.GetOr(0));
    StoreWritesConcat(s1.trace, s2.trace);
    Step(s2.widget, s1.trace + s2.trace)
  }

  /** Switches to the given model when its index is in range; the clothes index
      becomes the given one or 0 when it is absent or 0. Out of range, nothing
      at all happens: no index changes, no message, no pipeline. */
  function LoadSpecificModel(w: Widget, env: Env, modelIndex: int, clothesIndex: Option<int>): (r: Run)
    ensures r.outcome == Resolved
    ensures !(0 <= modelIndex < |w.options.models|) ==> r.widget == w && r.trace == []
    ensures 0 <= modelIndex < |w.options.models| ==>
              && r.widget.currentModelIndex == modelIndex
              && r.widget.currentModelClothesIndex == clothesIndex.GetOr(0)
              && Mirrored(r.widget)
              && r.widget.options == w.options
              && BuildAttempted(r.trace) == !MobileHidden(w.options, env.windowSize)
    ensures BuildsOnly(r.trace, modelIndex, clothesIndex.GetOr(0))
  {
    if 0 <= modelIndex < |w.options.models| then
      var s := SpecificSetters(w, modelIndex, clothesIndex);
      var tail := SwitchEffects(s.widget, env);
      SettersThenPipeline(s, tail, modelIndex, clothesIndex.GetOr(0));
      Run(s.widget, s.trace + tail, Resolved)
    else
      Run(w, [], Resolved)
  }

  /** The selection part of the next-clothes switch on a model with `count`
      clothes: written first as `old + 1`, reset to 0 once that reaches `count`. */
  function NextClothesSetters(w: Widget, count: nat): (s: Step)
    ensures s.widget.currentModelClothesIndex == NextIndex(w.currentModelClothesIndex, count)
    ensures s.widget.options == w.options
    ensures s.widget.currentModelIndex == w.currentModelIndex
    ensures ModelIndexMirrored(s.widget) <==> ModelIndexMirrored(w)
    ensures ClothesIndexMirrored(s.widget)
    ensures s.widget.models.modelIndex == w.models.modelIndex
    ensures s.widget.stage == w.stage
    ensures s.widget.store.modelIndex == w.store.modelIndex
    ensures StoreWritesOnly(s.trace) && !BuildAttempted(s.trace)
    ensures |s.trace| > 0 && s.trace[0] == StoreClothesIndex(w.currentModelClothesIndex + 1)
  {
    var s1 := SetModelClothesIndex(w, w.currentModelClothesIndex + 1);
    var s2 := if s1.widget.currentModelClothesIndex >= count then SetModelClothesIndex(s1.widget, 0)
              else Step(s1.widget, []);
    StoreWritesConcat(s1.trace, s2.trace);
    Step(s2.widget, s1.trace + s2.trace)
  }

  /** Advances to the next clothes of the current model. Reading the current
      model's options with an index outside the list throws before anything
      happens, so the returned promise rejects (the emptiness test that follows
      that read can therefore never fail); a model whose path is a string raises
      one notice and runs no pipeline; a model whose path is an array, of any
      length, advances the clothes circularly and runs the pipeline, without
      the switching message and without restarting the idle player. */
  function LoadNextModelClothes(w: Widget, env: Env): (r: Run)
    ensures r.outcome == Rejected <==> !(0 <= w.currentModelIndex < |w.options.models|)
    ensures r.outcome == Rejected ==> r.widget == w && r.trace == []
    ensures r.widget.options == w.options
    ensures r.widget.currentModelIndex == w.currentModelIndex
    ensures ModelIndexMirrored(w) ==> ModelIndexMirrored(r.widget)
    ensures ClothesIndexMirrored(w) ==> ClothesIndexMirrored(r.widget)
    ensures BuildsOnly(r.trace, w.models.modelIndex, r.widget.models.modelClothesIndex)
    ensures StatusOpen(SwitchingMessage) !in r.trace && IdleStart !in r.trace
    ensures 0 <= w.currentModelIndex < |w.options.models| && w.options.models[w.currentModelIndex].path.Single? ==>
              && r.widget == w
              && r.trace == [Notification(NoOtherClothes, NoOtherClothesDuration, NoOtherClothesPriority)]
    ensures 0 <= w.currentModelIndex < |w.options.models| && w.options.models[w.currentModelIndex].path.Variants? ==>
              var s := NextClothesSetters(w, |w.options.models[w.currentModelIndex].path.paths|);
              && r.widget == s.widget
              && |s.trace| <= |r.trace|
              && r.trace[|s.trace|..] == LoadModel(s.widget, env, SlideInCallback)
              && BuildAttempted(r.trace) == OnBuildPath(w, env)
  {
    if !(0 <= w.currentModelIndex < |w.options.models|) then
      Run(w, [], Rejected)
    else
      match w.options.models[w.currentModelIndex].path
      case Single(_) =>
        var t := [Notification(NoOtherClothes, NoOtherClothesDuration, NoOtherClothesPriority)];
        assert !t[0].Build?;
        Run(w, t, Resolved)
      case Variants(paths) =>
        var s := NextClothesSetters(w, |paths|);
        var tail := LoadModel(s.widget, env, SlideInCallback);
        SettersThenPipeline(s, tail, w.models.modelIndex, s.widget.models.modelClothesIndex);
        LoadModelLeavesOutSwitchSteps(s.widget, env, SlideInCallback);
        AfterStoreWrites(s.trace, tail, StatusOpen(SwitchingMessage));
        AfterStoreWrites(s.trace, tail, IdleStart);
        Run(s.widget, s.trace + tail, Resolved)
  }

  /** The first load, started by initialisation once the stage and status bar
      are created and mounted; its continuation depends on the initial status. */
  function InitialLoad(w: Widget, env: Env): (r: Run)
    ensures r.widget == w
    ensures r.outcome == Resolved
    ensures r.trace == LoadModel(w, env, InitialCallback)
    ensures BuildAttempted(r.trace) <==> OnBuildPath(w, env)
    ensures LoadingErrorRetryReload in r.trace <==>
              OnBuildPath(w, env) && !env.build(w.models.modelIndex, w.models.modelClothesIndex)
    ensures SlideIn in r.trace <==> OnBuildPath(w, env) && w.options.initialStatus.Active?
    ensures StatusOpen(RestMessage) in r.trace <==> OnBuildPath(w, env) && w.options.initialStatus.Sleep?
    ensures SetRestClickHandler(RestClickEffects()) in r.trace <==> OnBuildPath(w, env) && w.options.initialStatus.Sleep?
  {
    LoadModelContainsFailure(w, env, InitialCallback);
    InitialSlideIn(w, env);
    InitialRestMessage(w, env);
    InitialRestClick(w, env);
    Run(w, LoadModel(w, env, InitialCallback), Resolved)
  }
}
